=== FILE: README.md ===
# ShoreSquad weather widget, verified model

A Dafny model of the logic inside the ShoreSquad weather widget (`app.min.js`):

- **`Cache`**: a key-value store whose entries carry the time they were written. A read returns an entry's value while its age is at most the cache duration. Once the age is greater, the read deletes the entry and returns nothing.
- **`WeatherService.getWeather`**: answers from the cache under the key `"weather"` when that read yields a truthy value. Otherwise it fetches the 24-hour forecast, caches the parsed body and returns it. Every failure is rethrown, and a failed call stores nothing.
- **`UI.updateTime`**: turns an ISO-8601 timestamp into the clock text `YYYY-MM-DD HH:MM:SS UTC`.
- **`UI.updateWeather`**: reads the forecast fields out of the payload and converts them to strings. A read of a property of `null` or `undefined` throws. So does converting an object that has its own `toString` field.
- **`App.init`**: shows the overlay, starts the clock, requests the weather, shows the card or a fixed error message, and hides the overlay. It is modelled as a trace of visible events.

Files, one module each:

| file | module | models |
|---|---|---|
| `results.dfy` | `Results` | `Option` (a `null` return) and `Result` (a value or a thrown error) |
| `jsvalues.dfy` | `JsValues` | JavaScript values: truthiness, property access, `String(v)` as a template literal uses it |
| `timedcache.dfy` | `TimedCache` | class `Cache` |
| `cachehistory.dfy` | `CacheHistory` | any sequence of `set` and `get` calls on a `Cache` |
| `weatherservice.dfy` | `WeatherService` | class `WeatherService` and the `CONFIG.API` constants |
| `ui.dfy` | `Ui` | `updateTime`, the property reads of `updateWeather`, the `showError` message |
| `app.dfy` | `App` | `App.init` |

Everything is a pure function over immutable values:

- The clock is a parameter. `now` stands for `Date.now()` at the cache read. `getWeather` takes a second time, `arrival`, because `cache.set` reads `Date.now()` again after the two awaits.
- The network is a parameter of type `FetchOutcome`. It is either `NetFail` (the `fetch` promise rejects) or `Responded(status, body)`. The body is either `Parsed(data)` or `Unparsable` (the `response.json()` promise rejects). `response.ok` is a status from 200 to 299.
- A read of the cache returns the value found together with the cache after the read. The read has to return the cache because it can delete an entry.

Three behaviours of the code are easy to miss:

- A cache hit in `getWeather` is a fresh entry whose value is truthy, not simply a fresh entry (app.min.js:49). A fetched payload that is falsy (`null`, `false`, `0`, `""`) is cached but never served (`FalsyPayloadRefetches`).
- A failed call does not always leave the cache without a `"weather"` entry. It leaves the cache exactly as the initial read left it. That cache can still hold a fresh entry with a falsy value. In every case the next call goes to the network again (`FailureDoesNotPoisonCache`).
- A payload that is fetched but cannot be rendered stays cached. Rendering happens after `getWeather` has stored the payload (`RenderFailureKeepsPayload`).

## Model

| member | source | states |
|---|---|---|
| TimedCache.Empty | app.min.js:15-18 | a new cache has the given duration and no entries |
| TimedCache.Set | app.min.js:20-25 | the key's entry becomes the value stamped with `now`; the key set grows by exactly that key; every other entry is unchanged |
| TimedCache.Get | app.min.js:27-38 | a value is returned iff the key has an entry whose age is at most the duration, and it is that entry's value; the store is unchanged except that an expired key is removed |
| TimedCache.GetAfterSet | app.min.js:20-37 | a read after a write at `t` returns the written value iff `now - t <= duration`, otherwise nothing |
| TimedCache.FreshAtBoundary | app.min.js:31 | an age equal to the duration is still fresh; one millisecond more is expired (strict `>`) |
| TimedCache.GetExpiredPurges | app.min.js:31-35 | reading an expired key returns nothing and removes exactly that key |
| TimedCache.GetMissingKeepsCache | app.min.js:28-29 | reading a key with no entry returns nothing and leaves the cache as it was |
| TimedCache.GetHitKeepsCache | app.min.js:37 | a read that returns a value leaves the cache as it was |
| TimedCache.GetOtherKeyKeepsEntry | app.min.js:33 | a read of one key never removes or changes another key's entry |
| TimedCache.GetIdempotent | app.min.js:27-38 | a second read at the same instant gives the same answer and the same cache as the first |
| TimedCache.SetOverwrites | app.min.js:20-25 | a later write replaces the earlier value and timestamp, so a key never has two entries |
| TimedCache.PurgeThenReuse | app.min.js:20-38 | after an entry has expired and been purged, a new write followed by a read within the window returns the new value |
| CacheHistory.ReplayEntry | app.min.js:20-38 | after any history of `set` and `get` calls on a new cache, a key has an entry iff its last `set` was not followed by a `get` of that key that found the entry expired; the entry is that `set`'s value and time |
| CacheHistory.ReadAfterHistory | app.min.js:27-38 | after any history, a read returns a value iff the key's last `set` survives and is at most the duration old; the value is the one that `set` stored |
| WeatherService.NewService | app.min.js:43-45 | a new service starts with an empty cache whose duration is 300000 ms |
| WeatherService.ResponseOk | app.min.js:53 | `response.ok` holds iff the status is in the 2xx class |
| WeatherService.GetWeather | app.min.js:47-62 | the network is used iff the cache read gives no truthy value; a hit returns the cached value and leaves the cache as it was; on a miss the call succeeds iff the outcome has an ok status and a parsed body, and each failure is the error that outcome leads to; a success returns that body and stores it under "weather" stamped at `arrival`; a failure leaves the cache as the read left it |
| WeatherService.MissFollowsOutcome | app.min.js:51-60 | on a miss: a network failure gives NetworkError, a status outside 200-299 gives FetchError, an unparsable body gives ParseError, and the cache is unchanged after the read; a parsed body is returned and stored, and other keys are kept |
| WeatherService.StatusCheckedBeforeBody | app.min.js:52-55 | a non-ok status gives FetchError even when the body would not parse |
| WeatherService.SecondCallHitsCache | app.min.js:48-57 | after a call that fetched a truthy payload, a call within the window returns the same payload, does not fetch and does not change the cache, whatever the network would answer |
| WeatherService.ExpiredRefetches | app.min.js:48-52 | once the window after a fetch has elapsed, the next call fetches again |
| WeatherService.FalsyPayloadRefetches | app.min.js:48-49 | a falsy payload is returned once but never served from the cache; the next call fetches again |
| WeatherService.FailureDoesNotPoisonCache | app.min.js:48-60 | after any failed call, the next call fetches again, at any time |
| JsValues.Prop | app.min.js:85-93 | reading a property fails iff the object is null or undefined; it yields an object's own field, and undefined otherwise |
| JsValues.First | app.min.js:85 | `items[0]` fails iff `items` is nullish; it yields an array's first element, a string's first character, an object's field "0", and undefined for an empty array or string, a boolean or a number |
| JsValues.NatToDecimal | app.min.js:91-93 | a number is printed as a non-empty string of decimal digits without a leading zero |
| JsValues.DecimalRoundTrip | app.min.js:91-93 | reading the printed digits back gives the number |
| JsValues.NumberText | app.min.js:91-93 | a number's text starts with a minus sign iff the number is negative; the rest is decimal digits whose value is the number's magnitude, with no leading zero unless the magnitude is 0 |
| JsValues.JoinComma | app.min.js:90-93 | an array with no elements prints as the empty string, and an array with one element prints as that element |
| JsValues.JoinCommaAppend | app.min.js:90-93 | joining two non-empty lists gives their joins with exactly one comma between them |
| JsValues.Text | app.min.js:90-93 | `${v}` succeeds iff no object reached by the conversion has its own `toString` field; a string is inserted as itself, a number as its decimal text, `undefined` and `null` by name, a boolean as "true" or "false", a convertible object as "[object Object]", an empty array as the empty string |
| JsValues.TextSingleton | app.min.js:90-93 | a one-element array prints as its element, and as the empty string when that element is `null` or `undefined` |
| JsValues.TextArrayAppend | app.min.js:90-93 | a printable array prints as the texts of any two non-empty halves joined by one comma |
| JsValues.TextArrayExample | app.min.js:90-93 | `[1, null, 2]` prints as "1,,2" |
| JsValues.Truthy | app.min.js:49 | a value is truthy iff it is not `undefined`, `null`, `false`, `0` or `""` |
| Ui.ReplaceFirst | app.min.js:113 | replacing a character keeps the string's length |
| Ui.ReplaceFirstAt | app.min.js:113 | exactly the first occurrence of 'T' becomes a space and every other character is kept |
| Ui.ReplaceFirstAbsent | app.min.js:113 | a string without 'T' is left unchanged |
| Ui.Take | app.min.js:114 | `slice(0, 19)` keeps a prefix of the string, 19 characters long or the whole string if it is shorter |
| Ui.FormatClock | app.min.js:110-115 | the clock text is at most 19 characters of the timestamp followed by " UTC" |
| Ui.ClockOfIso | app.min.js:112-114 | for `YYYY-MM-DDTHH:MM:SS.sssZ` the text is the date, a space, the time to the second and " UTC", 23 characters in all |
| Ui.ClockExample | app.min.js:112-114 | 2025-06-02T07:28:30.123Z is shown as "2025-06-02 07:28:30 UTC" |
| Ui.ReadForecast | app.min.js:84-98 | building the card succeeds iff the payload, `items`, `items[0]`, `general`, `temperature`, `relative_humidity`, `wind` and `wind.speed` are all non-nullish and each of the seven interpolated values can be converted to a string; the forecast line is `general.forecast` as text |
| Ui.ReadRenderable | app.min.js:85-93 | every renderable payload is shown as its forecast text, "{low}°C - {high}°C", "{low}% - {high}%" and "{low} - {high} km/h", each part being the string form of that field |
| Ui.ToStringFieldFails | app.min.js:90 | a forecast field that is an object with its own `toString` field, such as `{"toString": 0}`, makes the card fail |
| Ui.RenderPayload | app.min.js:85-93 | a payload of the endpoint's shape is shown with its forecast, "{low}°C - {high}°C", "{low}% - {high}%" and "{low} - {high} km/h" |
| Ui.RenderExample | app.min.js:89-93 | "Cloudy", 24/31, 60/95 and 10/20 are shown as "Cloudy", "24°C - 31°C", "60% - 95%" and "10 - 20 km/h" |
| App.Outcome | app.min.js:133-137 | the card is shown iff both the request and the rendering succeed; otherwise the fixed message is shown |
| App.Init | app.min.js:125-141 | the trace starts with show-loading and then the clock, and ends with hide-loading; neither overlay event occurs anywhere else; a request event comes right after the clock iff the cache missed; the event before the last is the card or the fixed message; the cache is the one `getWeather` left |
| App.FirstRunSuccess | app.min.js:125-141 | a new application whose fetch succeeds with a renderable payload shows exactly: overlay, clock, request, card, overlay hidden |
| App.FirstRunFailure | app.min.js:125-141 | a new application whose fetch fails, or whose payload cannot be rendered, shows exactly: overlay, clock, request, the fixed message, overlay hidden |
| App.RenderFailureKeepsPayload | app.min.js:133-137 | a fetched payload that cannot be rendered leads to the error message and stays cached |

## Left out

- `fetch` and `response.json()` (app.min.js:52, 55) are network I/O and foreign calls. Only their outcome is modelled, as a parameter.
- `Date.now()` and `new Date().toISOString()` read the wall clock. Their readings are parameters. The conversion from milliseconds to an ISO string is not modelled.
- The `setInterval` in `startTimeUpdates` (app.min.js:145) is timer scheduling. Only the first, immediate clock update appears in the `init` trace.
- The 300 ms `setTimeout` in `hideLoading` (app.min.js:79-81) is timer scheduling. Hiding the overlay is one event.
- DOM access is not modelled: element lookups, `innerHTML`, `style`, `textContent`, the `DOMContentLoaded` listener and the reload button. A rendering is the values the templates insert, not the whole text on the page.
- The fixed parts of the two templates are not modelled. On the card (app.min.js:86-96) these are the HTML markup and the labels "Current Forecast", "Temperature: ", "Humidity: " and "Wind: ". On the error panel (app.min.js:101-106) they are the markup, the "🚨 " before the message and the "Retry" button.
- `CONFIG.USER` (app.min.js:7-10) is never read.
- `console.error` (app.min.js:59) only logs.
- The model does not cover concurrent calls of `getWeather` that interleave at the awaits.
- JavaScript numbers are integers in the model. Fractional values and `NaN` are left out, and so is the exponent notation of `String(n)` (see the `JsValues.NumberText` line below).
- JsValues.NumberText: prints every integer as plain digits. JavaScript switches to exponent notation at a magnitude of 10^21, so `String(1e21)` is "1e+21", where the model gives "1" followed by 21 zeros. Temperatures, humidities and wind speeds stay far below that.
- JsValues.First: a string is a sequence of Unicode code points in the model. JavaScript indexes strings by UTF-16 code unit, so `"😀x"[0]` is a lone surrogate, while the model gives the whole "😀". The widget cannot observe this: a string `items` has no `general` property, so `items[0].general` reads `undefined`, and the next property read throws either way.
- Ui.Take: counts code points where `slice(0, 19)` counts UTF-16 code units, and the length in the `FormatClock` contract counts code points too. The two agree on ASCII text, and `toISOString` produces only ASCII, so the clock text is the same.
- JsValues.Prop: does not model built-in properties of prototypes, such as `length`. None of the property names the widget reads is one of them.
- Ui.FormatClock: its contract states only the length and the " UTC" suffix for arbitrary strings. The full content is stated by `ClockOfIso`, for timestamps in the shape `toISOString` produces for years 0 to 9999.

=== FILE: app.dfy ===
/**
  `App.init` as the sequence of visible events it produces. The recurring
  clock timer and the delayed hiding of the overlay are not modelled;
  their first effects are single events in the trace.
*/
module App {
  import opened Results
  import opened JsValues
  import opened TimedCache
  import opened WeatherService
  import opened Ui

  datatype Event =
    | ShowLoading
    | ClockShown(text: string)
    | FetchIssued(url: string)
    | WeatherShown(view: ForecastView)
    | ErrorShown(message: string)
    | HideLoading

  /** What one run of `init` shows, and the service's cache when it is done. */
  datatype Run = Run(trace: seq<Event>, cache: WeatherCache)

  /** The weather request and the rendering of its payload both went through. */
  predicate Rendered(reply: Reply) {
    reply.result.Ok? && ReadForecast(reply.result.value).Ok?
  }

  /** The event that ends the `try`/`catch`: the card on success, the fixed message on any failure. */
  function Outcome(reply: Reply): (e: Event)
    ensures e.WeatherShown? <==> Rendered(reply)
    ensures e.ErrorShown? <==> !Rendered(reply)
    ensures e.ErrorShown? ==> e.message == ErrorMessage
    ensures e.WeatherShown? ==> Ok(e.view) == ReadForecast(reply.result.value)
  {
    match reply.result
    case Err(_) => ErrorShown(ErrorMessage)
    case Ok(data) =>
      match ReadForecast(data)
      case Ok(view) => WeatherShown(view)
      case Err(_) => ErrorShown(ErrorMessage)
  }

  /**
    `init()`: show the overlay, show the clock, request the weather, show
    the card or the error message, hide the overlay. `iso` is the clock's
    ISO-8601 reading; `now`, `outcome` and `arrival` are as for `GetWeather`.
  */
  function Init(c: WeatherCache, iso: string, now: int, outcome: FetchOutcome, arrival: int): (r: Run)
    ensures 4 <= |r.trace| <= 5
    ensures r.trace[0] == ShowLoading
    ensures r.trace[1] == ClockShown(FormatClock(iso))
    ensures r.trace[|r.trace| - 1] == HideLoading
    ensures forall i :: 0 < i < |r.trace| ==> r.trace[i] != ShowLoading
    ensures forall i :: 0 <= i < |r.trace| - 1 ==> r.trace[i] != HideLoading
    ensures |r.trace| == 5 <==> !CacheHit(c, now)
    ensures |r.trace| == 5 ==> r.trace[2] == FetchIssued(WeatherEndpoint)
    ensures r.trace[|r.trace| - 2] == Outcome(GetWeather(c, now, outcome, arrival))
    ensures r.cache == GetWeather(c, now, outcome, arrival).cache
  {
    var reply := GetWeather(c, now, outcome, arrival);
    var request := if reply.fetched then [FetchIssued(WeatherEndpoint)] else [];
    Run([ShowLoading, ClockShown(FormatClock(iso))] + request + [Outcome(reply), HideLoading], reply.cache)
  }

  /**
    A freshly constructed application always goes to the network. When the
    response is a success whose body parses into a renderable payload, it
    shows exactly: overlay, clock, request, card, overlay hidden.
  */
  lemma FirstRunSuccess(iso: string, now: int, status: int, data: JsValue, arrival: int)
    requires ResponseOk(status) && Renderable(data)
    ensures Init(NewService(), iso, now, Responded(status, Parsed(data)), arrival).trace
         == [ShowLoading, ClockShown(FormatClock(iso)), FetchIssued(WeatherEndpoint),
             WeatherShown(ReadForecast(data).value), HideLoading]
  {
  }

  /**
    When the request fails, or its payload cannot be rendered, a freshly
    constructed application shows exactly: overlay, clock, request, the
    fixed message, overlay hidden.
  */
  lemma FirstRunFailure(iso: string, now: int, outcome: FetchOutcome, arrival: int)
    requires FailureOf(outcome).Some? || !Renderable(outcome.body.data)
    ensures Init(NewService(), iso, now, outcome, arrival).trace
         == [ShowLoading, ClockShown(FormatClock(iso)), FetchIssued(WeatherEndpoint),
             ErrorShown(ErrorMessage), HideLoading]
  {
  }

  /**
    A payload that was fetched but could not be rendered stays cached: the
    failure is in `updateWeather`, after `getWeather` has stored it.
  */
  lemma RenderFailureKeepsPayload(c: WeatherCache, iso: string, now: int, status: int, data: JsValue, arrival: int)
    requires !CacheHit(c, now) && ResponseOk(status) && !Renderable(data)
    ensures var r := Init(c, iso, now, Responded(status, Parsed(data)), arrival);
      && r.trace[|r.trace| - 2] == ErrorShown(ErrorMessage)
      && r.cache.store[WeatherKey] == Entry(data, arrival)
  {
  }
}

=== FILE: cachehistory.dfy ===
/**
  The cache as a state machine: any history of `set` and `get` calls,
  replayed on a new cache, leaves each key holding the entry of its last
  `set`, unless a later `get` of that key found the entry expired.
*/
module CacheHistory {
  import opened Results
  import opened TimedCache

  /** One call on the cache, with the time of the call. */
  datatype Op<K, V> = SetOp(key: K, value: V, at: int) | GetOp(key: K, at: int)

  function Apply<K, V>(c: Cache<K, V>, op: Op<K, V>): Cache<K, V> {
    match op
    case SetOp(k, v, t) => Set(c, k, v, t)
    case GetOp(k, t) => Get(c, k, t).cache
  }

  /** The cache after the calls of `ops`, in order, starting from `c`. */
  function Replay<K, V>(c: Cache<K, V>, ops: seq<Op<K, V>>): (r: Cache<K, V>)
    ensures r.duration == c.duration
    decreases |ops|
  {
    if |ops| == 0 then c else Apply(Replay(c, ops[..|ops| - 1]), ops[|ops| - 1])
  }

  /** `ops[i]` writes `key`, and no later call writes it. */
  predicate LastSetAt<K(==), V>(ops: seq<Op<K, V>>, key: K, i: int) {
    && 0 <= i < |ops|
    && ops[i].SetOp? && ops[i].key == key
    && forall j :: i < j < |ops| ==> !(ops[j].SetOp? && ops[j].key == key)
  }

  /** `op` is a read of `key` that finds an entry stamped `t` expired. */
  predicate Purges<K(==), V>(op: Op<K, V>, key: K, t: int, duration: int) {
    op.GetOp? && op.key == key && op.at - t > duration
  }

  /** The write `ops[i]` is the last one to `key`, and no later read purged it. */
  predicate Survives<K(==), V>(ops: seq<Op<K, V>>, key: K, i: int, duration: int) {
    && LastSetAt(ops, key, i)
    && forall j :: i < j < |ops| ==> !Purges(ops[j], key, ops[i].at, duration)
  }

  /** A key has at most one last write. */
  lemma LastSetUnique<K, V>(ops: seq<Op<K, V>>, key: K, i: int, j: int)
    requires LastSetAt(ops, key, i) && LastSetAt(ops, key, j)
    ensures i == j
  {
  }

  /**
    Appending a call that does not write `key` keeps the survivors of the
    earlier history that the call does not purge, and adds none.
  */
  lemma SurvivesAfter<K, V>(ops: seq<Op<K, V>>, key: K, i: int, duration: int)
    requires |ops| > 0 && 0 <= i < |ops|
    requires !(ops[|ops| - 1].SetOp? && ops[|ops| - 1].key == key)
    ensures Survives(ops, key, i, duration) <==>
      i < |ops| - 1 && Survives(ops[..|ops| - 1], key, i, duration) && !Purges(ops[|ops| - 1], key, ops[i].at, duration)
  {
    var pre := ops[..|ops| - 1];
    assert forall j :: 0 <= j < |pre| ==> ops[j] == pre[j];
  }

  /** A history ending in a write of `key` has that write as its only survivor. */
  lemma SurvivorAfterSet<K, V>(ops: seq<Op<K, V>>, key: K, duration: int)
    requires |ops| > 0 && ops[|ops| - 1].SetOp? && ops[|ops| - 1].key == key
    ensures Survives(ops, key, |ops| - 1, duration)
    ensures forall i :: Survives(ops, key, i, duration) ==> i == |ops| - 1
  {
    forall i | Survives(ops, key, i, duration) ensures i == |ops| - 1 {
      LastSetUnique(ops, key, i, |ops| - 1);
    }
  }

  /** After a call that does not write `key`, the earlier survivor is the only candidate. */
  lemma SurvivorAfterOther<K, V>(ops: seq<Op<K, V>>, key: K, i: int, duration: int)
    requires |ops| > 0 && !(ops[|ops| - 1].SetOp? && ops[|ops| - 1].key == key)
    requires Survives(ops[..|ops| - 1], key, i, duration)
    ensures Survives(ops, key, i, duration) <==> !Purges(ops[|ops| - 1], key, ops[i].at, duration)
    ensures forall i' :: Survives(ops, key, i', duration) ==> i' == i
  {
    var pre := ops[..|ops| - 1];
    SurvivesAfter(ops, key, i, duration);
    forall i' | Survives(ops, key, i', duration) ensures i' == i {
      SurvivesAfter(ops, key, i', duration);
      LastSetUnique(pre, key, i, i');
    }
  }

  /** After a call that does not write `key`, a history without a survivor still has none. */
  lemma NoSurvivorAfterOther<K, V>(pre: seq<Op<K, V>>, op: Op<K, V>, key: K, duration: int)
    requires !(op.SetOp? && op.key == key)
    requires forall i :: !Survives(pre, key, i, duration)
    ensures forall i :: !Survives(pre + [op], key, i, duration)
  {
    var ops := pre + [op];
    assert ops[..|ops| - 1] == pre;
    forall i | 0 <= i < |ops| ensures !Survives(ops, key, i, duration) {
      SurvivesAfter(ops, key, i, duration);
    }
  }

  /**
    After any history on a new cache, `key` has an entry exactly when its
    last write survives, and the entry is that write's value and time.
  */
  lemma {:induction false} ReplayEntry<K, V>(duration: int, ops: seq<Op<K, V>>, key: K)
    ensures key in Replay(Empty(duration), ops).store <==> exists i :: Survives(ops, key, i, duration)
    ensures forall i :: Survives(ops, key, i, duration) ==>
      Replay(Empty(duration), ops).store[key] == Entry(ops[i].value, ops[i].at)
    decreases |ops|
  {
    if |ops| > 0 {
      var n := |ops| - 1;
      var pre := ops[..n];
      var before := Replay(Empty<K, V>(duration), pre);
      assert Replay(Empty<K, V>(duration), ops) == Apply(before, ops[n]);
      ReplayEntry(duration, pre, key);
      if ops[n].SetOp? && ops[n].key == key {
        SurvivorAfterSet(ops, key, duration);
      } else if key in before.store {
        var i :| Survives(pre, key, i, duration);
        SurvivorAfterOther(ops, key, i, duration);
      } else {
        assert ops == pre + [ops[n]];
        NoSurvivorAfterOther(pre, ops[n], key, duration);
      }
    }
  }

  /**
    A read at `now` after any history on a new cache returns a value
    exactly when the key's last write survives and is at most `duration`
    old at `now`; the value is the one that write stored.
  */
  lemma ReadAfterHistory<K, V>(duration: int, ops: seq<Op<K, V>>, key: K, now: int)
    ensures Get(Replay(Empty(duration), ops), key, now).value.Some? <==>
      exists i :: Survives(ops, key, i, duration) && now - ops[i].at <= duration
    ensures forall i :: Survives(ops, key, i, duration) && now - ops[i].at <= duration ==>
      Get(Replay(Empty(duration), ops), key, now).value == Some(ops[i].value)
  {
    ReplayEntry(duration, ops, key);
  }
}

=== FILE: jsvalues.dfy ===
/**
  The JavaScript values the widget handles: the parsed forecast payload and
  the values read out of it. Numbers are integers (see README, "Left out").
*/
module JsValues {
  import opened Results

  datatype JsValue =
    | Undefined
    | Null
    | Bool(b: bool)
    | Num(n: int)
    | Str(s: string)
    | Arr(elems: seq<JsValue>)
    | Obj(fields: map<string, JsValue>)

  /**
    The TypeError the widget can meet: reading a property of `null` or
    `undefined`, or converting to a string an object whose own `toString`
    field is not a function.
  */
  datatype JsError = TypeError(detail: string)

  /** JavaScript truthiness: `false`, `0`, `""`, `null` and `undefined` are falsy. */
  predicate Truthy(v: JsValue): (b: bool)
    ensures b <==> !(Nullish(v) || v == Bool(false) || v == Num(0) || v == Str(""))
  {
    match v
    case Undefined => false
    case Null => false
    case Bool(b) => b
    case Num(n) => n != 0
    case Str(s) => s != ""
    case Arr(_) => true
    case Obj(_) => true
  }

  predicate Nullish(v: JsValue) {
    v.Undefined? || v.Null?
  }

  /**
    The value of `v.name` for a property name that is not a built-in
    property of any prototype: an own field of an object, `undefined`
    otherwise. It is what a read yields when the read does not throw.
  */
  function Field(v: JsValue, name: string): JsValue {
    if v.Obj? && name in v.fields then v.fields[name] else Undefined
  }

  /** `v.name`: a TypeError on `null` and `undefined`, `Field` on every other value. */
  function Prop(v: JsValue, name: string): (r: Result<JsValue, JsError>)
    ensures r.Err? <==> Nullish(v)
    ensures r.Ok? && v.Obj? && name in v.fields ==> r.value == v.fields[name]
    ensures r.Ok? && !(v.Obj? && name in v.fields) ==> r.value == Undefined
  {
    if Nullish(v) then Err(TypeError(name)) else Ok(Field(v, name))
  }

  /**
    The value of `v[0]`: the first element of an array, the first character
    of a string, the field "0" of any other value.
  */
  function FirstValue(v: JsValue): JsValue {
    match v
    case Arr(a) => if |a| > 0 then a[0] else Undefined
    case Str(s) => if |s| > 0 then Str([s[0]]) else Undefined
    case _ => Field(v, "0")
  }

  /** `v[0]`: a TypeError on `null` and `undefined`, `FirstValue` on every other value. */
  function First(v: JsValue): (r: Result<JsValue, JsError>)
    ensures r.Err? <==> Nullish(v)
    ensures v.Arr? && |v.elems| > 0 ==> r == Ok(v.elems[0])
    ensures v.Str? && |v.s| > 0 ==> r == Ok(Str([v.s[0]]))
    ensures v.Obj? ==> r == Prop(v, "0")
    ensures (v.Arr? && |v.elems| == 0) || (v.Str? && |v.s| == 0) || v.Bool? || v.Num? ==> r == Ok(Undefined)
  {
    if Nullish(v) then Err(TypeError("0")) else Ok(FirstValue(v))
  }

  predicate IsDigit(c: char) {
    '0' <= c <= '9'
  }

  /** The decimal digits of a natural number, most significant first. */
  function NatToDecimal(n: nat): (r: string)
    ensures |r| > 0
    ensures forall i :: 0 <= i < |r| ==> IsDigit(r[i])
    ensures |r| > 1 ==> r[0] != '0'
    decreases n
  {
    var d := [('0' as int + n % 10) as char];
    if n < 10 then d else NatToDecimal(n / 10) + d
  }

  predicate AllDigits(s: string) {
    forall i :: 0 <= i < |s| ==> IsDigit(s[i])
  }

  /** The value of a string of decimal digits. */
  function DecimalValue(s: string): (r: nat)
    requires AllDigits(s)
    decreases |s|
  {
    if |s| == 0 then 0
    else
      assert IsDigit(s[|s| - 1]);
      10 * DecimalValue(s[..|s| - 1]) + (s[|s| - 1] as int - '0' as int)
  }

  /** Reading the digits back gives the number: the rendering loses nothing. */
  lemma {:induction false} DecimalRoundTrip(n: nat)
    ensures DecimalValue(NatToDecimal(n)) == n
    decreases n
  {
    var d := [('0' as int + n % 10) as char];
    if n >= 10 {
      var s := NatToDecimal(n / 10) + d;
      assert s[..|s| - 1] == NatToDecimal(n / 10);
      DecimalRoundTrip(n / 10);
    }
  }

  /**
    `String(n)` for an integer number: a minus sign exactly for negative
    numbers, followed by digits whose value is the magnitude.
  */
  function NumberText(n: int): (r: string)
    ensures |r| > 0
    ensures r[0] == '-' <==> n < 0
    ensures n >= 0 ==> AllDigits(r) && DecimalValue(r) == n
    ensures n < 0 ==> AllDigits(r[1..]) && DecimalValue(r[1..]) == -n
    ensures n >= 0 && |r| > 1 ==> r[0] != '0'
    ensures n < 0 ==> |r| > 1 && r[1] != '0'
  {
    if n < 0 then
      var digits := NatToDecimal(-n);
      DecimalRoundTrip(-n);
      assert ("-" + digits)[1..] == digits;
      "-" + digits
    else
      DecimalRoundTrip(n);
      NatToDecimal(n)
  }

  /** The elements of `parts` separated by commas, as `Array.prototype.join` does. */
  function JoinComma(parts: seq<string>): (r: string)
    ensures |parts| == 0 ==> r == ""
    ensures |parts| == 1 ==> r == parts[0]
    decreases |parts|
  {
    if |parts| == 0 then ""
    else if |parts| == 1 then parts[0]
    else JoinComma(parts[..|parts| - 1]) + "," + parts[|parts| - 1]
  }

  /** Joining two non-empty lists puts exactly one comma between their joins. */
  lemma {:induction false} JoinCommaAppend(a: seq<string>, b: seq<string>)
    requires |a| > 0 && |b| > 0
    ensures JoinComma(a + b) == JoinComma(a) + "," + JoinComma(b)
    decreases |b|
  {
    var ab := a + b;
    if |b| == 1 {
      assert ab[..|ab| - 1] == a;
    } else {
      var b' := b[..|b| - 1];
      assert ab[..|ab| - 1] == a + b';
      JoinCommaAppend(a, b');
    }
  }

  /**
    `String(v)` succeeds: every object it meets, `v` itself or a non-nullish
    element of an array at any depth, has no own `toString` field.
  */
  predicate Printable(v: JsValue)
    decreases v
  {
    match v
    case Obj(m) => "toString" !in m
    case Arr(a) => forall i :: 0 <= i < |a| ==> Nullish(a[i]) || Printable(a[i])
    case _ => true
  }

  /**
    The text a template literal `${v}` inserts: `String(v)`. Arrays join
    their elements with commas, writing `null` and `undefined` elements as
    the empty string; an object prints as "[object Object]". A parsed JSON
    object with its own `toString` field throws: that field is not a
    function, and `valueOf` returns the object itself, not a primitive.
  */
  function Text(v: JsValue): (r: Result<string, JsError>)
    ensures r.Ok? <==> Printable(v)
    ensures v.Str? ==> r == Ok(v.s)
    ensures v.Num? ==> r == Ok(NumberText(v.n))
    ensures v.Undefined? ==> r == Ok("undefined")
    ensures v.Null? ==> r == Ok("null")
    ensures v.Bool? ==> r == Ok(if v.b then "true" else "false")
    ensures v.Obj? && r.Ok? ==> r.value == "[object Object]"
    ensures v.Arr? && |v.elems| == 0 ==> r == Ok("")
    decreases v
  {
    match v
    case Undefined => Ok("undefined")
    case Null => Ok("null")
    case Bool(b) => Ok(if b then "true" else "false")
    case Num(n) => Ok(NumberText(n))
    case Str(s) => Ok(s)
    case Arr(a) =>
      if exists i :: 0 <= i < |a| && !Nullish(a[i]) && Text(a[i]).Err? then
        Err(TypeError("toString"))
      else
        Ok(JoinComma(seq(|a|, i requires 0 <= i < |a| => if Nullish(a[i]) then "" else Text(a[i]).value)))
    case Obj(m) =>
      if "toString" in m then Err(TypeError("toString")) else Ok("[object Object]")
  }

  /**
    A one-element array prints as its element, except that a `null` or
    `undefined` element prints as the empty string.
  */
  lemma TextSingleton(x: JsValue)
    requires Nullish(x) || Printable(x)
    ensures Text(Arr([x])) == Ok(if Nullish(x) then "" else Text(x).value)
  {
  }

  /**
    The text of an array is the texts of its two halves with one comma
    between them: `String([1, null, 2])` is "1,,2".
  */
  lemma TextArrayAppend(a: seq<JsValue>, b: seq<JsValue>)
    requires |a| > 0 && |b| > 0
    requires Printable(Arr(a)) && Printable(Arr(b))
    ensures Text(Arr(a + b)) == Ok(Text(Arr(a)).value + "," + Text(Arr(b)).value)
  {
    var ab := a + b;
    assert Printable(Arr(ab)) by {
      forall i | 0 <= i < |ab| ensures Nullish(ab[i]) || Printable(ab[i]) {
        if i < |a| { assert ab[i] == a[i]; } else { assert ab[i] == b[i - |a|]; }
      }
    }
    var ta := seq(|a|, i requires 0 <= i < |a| => if Nullish(a[i]) then "" else Text(a[i]).value);
    var tb := seq(|b|, i requires 0 <= i < |b| => if Nullish(b[i]) then "" else Text(b[i]).value);
    var tab := seq(|ab|, i requires 0 <= i < |ab| => if Nullish(ab[i]) then "" else Text(ab[i]).value);
    assert tab == ta + tb;
    JoinCommaAppend(ta, tb);
  }

  /** `String([1, null, 2])` is "1,,2": the null element leaves an empty slot. */
  lemma TextArrayExample()
    ensures Text(Arr([Num(1), Null, Num(2)])) == Ok("1,,2")
  {
    assert "1," + "," + "2" == "1,,2";
    assert NumberText(1) == "1" && NumberText(2) == "2";
    TextSingleton(Num(1));
    TextSingleton(Null);
    TextSingleton(Num(2));
    assert Text(Arr([Num(1)])).value == "1";
    assert Text(Arr([Null])).value == "";
    assert Text(Arr([Num(2)])).value == "2";
    assert [Num(1)] + [Null] == [Num(1), Null];
    TextArrayAppend([Num(1)], [Null]);
    assert Text(Arr([Num(1), Null])).value == "1,";
    assert [Num(1), Null] + [Num(2)] == [Num(1), Null, Num(2)];
    TextArrayAppend([Num(1), Null], [Num(2)]);
  }
}

=== FILE: results.dfy ===
/** Optional values and success-or-error results, shared by the other modules. */
module Results {

  /** A value that may be absent; the model of a JavaScript `null` return. */
  datatype Option<+T> = None | Some(value: T)

  /** A computation that either produced a value or threw an error. */
  datatype Result<+T, +E> = Ok(value: T) | Err(error: E) {

    predicate IsFailure() {
      Err?
    }

    function PropagateFailure<U>(): Result<U, E>
      requires Err?
    {
      Err(error)
    }

    function Extract(): T
      requires Ok?
    {
      value
    }
  }
}

=== FILE: timedcache.dfy ===
/**
  The widget's `Cache`: a key-value store in which every entry carries the
  time it was written, and a read treats an entry older than the cache's
  duration as gone. The clock is a parameter: `now` stands for `Date.now()`
  at the moment of the call, in milliseconds.
*/
module TimedCache {
  import opened Results

  datatype Entry<V> = Entry(value: V, timestamp: int)

  /** At most one entry per key is built in: the store is a map. */
  datatype Cache<K, V> = Cache(duration: int, store: map<K, Entry<V>>)

  /** The result of a read: the value found, and the cache after the read. */
  datatype Lookup<K, V> = Lookup(value: Option<V>, cache: Cache<K, V>)

  /** An entry written at `e.timestamp` still counts at `now`: the expiry test is a strict `>`. */
  predicate Fresh<V>(e: Entry<V>, duration: int, now: int) {
    !(now - e.timestamp > duration)
  }

  /** A new cache with the given duration holds nothing. */
  function Empty<K, V>(duration: int): (c: Cache<K, V>)
    ensures c.duration == duration
    ensures |c.store| == 0
  {
    Cache(duration, map[])
  }

  /**
    `set(key, value)`: stamps the value with the current time and replaces
    whatever entry `key` had; no other key is touched.
  */
  function Set<K, V>(c: Cache<K, V>, key: K, value: V, now: int): (r: Cache<K, V>)
    ensures r.duration == c.duration
    ensures key in r.store && r.store[key] == Entry(value, now)
    ensures r.store.Keys == c.store.Keys + {key}
    ensures forall k :: k in c.store && k != key ==> r.store[k] == c.store[k]
  {
    c.(store := c.store[key := Entry(value, now)])
  }

  /**
    `get(key)`: the stored value while the entry is fresh; `None` when there
    is no entry, or when the entry has expired, in which case the entry is
    deleted and every other entry is kept.
  */
  function Get<K, V>(c: Cache<K, V>, key: K, now: int): (r: Lookup<K, V>)
    ensures r.value.Some? <==> key in c.store && Fresh(c.store[key], c.duration, now)
    ensures r.value.Some? ==> r.value.value == c.store[key].value
    ensures r.cache.duration == c.duration
    ensures r.cache.store.Keys == if r.value.Some? || key !in c.store then c.store.Keys else c.store.Keys - {key}
    ensures forall k :: k in r.cache.store ==> r.cache.store[k] == c.store[k]
  {
    if key !in c.store then
      Lookup(None, c)
    else
      var item := c.store[key];
      if now - item.timestamp > c.duration then
        Lookup(None, c.(store := c.store - {key}))
      else
        Lookup(Some(item.value), c)
  }

  /**
    A read right after a write returns the written value exactly when the
    age `now - t` is at most the duration, both directions; an age equal to
    the duration is still fresh.
  */
  lemma GetAfterSet<K, V>(c: Cache<K, V>, key: K, value: V, t: int, now: int)
    ensures Get(Set(c, key, value, t), key, now).value == Some(value) <==> now - t <= c.duration
    ensures now - t > c.duration ==> Get(Set(c, key, value, t), key, now).value == None
  {
  }

  /** The boundary case: at an age of exactly the duration the value is returned. */
  lemma FreshAtBoundary<K, V>(c: Cache<K, V>, key: K, value: V, t: int)
    ensures Get(Set(c, key, value, t), key, t + c.duration).value == Some(value)
    ensures Get(Set(c, key, value, t), key, t + c.duration + 1).value == None
  {
  }

  /** An expired entry is purged: `None`, the key removed, every other entry as it was. */
  lemma GetExpiredPurges<K, V>(c: Cache<K, V>, key: K, now: int)
    requires key in c.store && now - c.store[key].timestamp > c.duration
    ensures Get(c, key, now).value == None
    ensures Get(c, key, now).cache == c.(store := c.store - {key})
    ensures key !in Get(c, key, now).cache.store
  {
  }

  /** Reading a key that was never written returns `None` and changes nothing. */
  lemma GetMissingKeepsCache<K, V>(c: Cache<K, V>, key: K, now: int)
    requires key !in c.store
    ensures Get(c, key, now) == Lookup(None, c)
  {
  }

  /** A read that finds a value changes nothing. */
  lemma GetHitKeepsCache<K, V>(c: Cache<K, V>, key: K, now: int)
    requires Get(c, key, now).value.Some?
    ensures Get(c, key, now).cache == c
  {
  }

  /** Only a read of `key` itself can remove `key`'s entry; reads of other keys leave it be. */
  lemma GetOtherKeyKeepsEntry<K, V>(c: Cache<K, V>, key: K, other: K, now: int)
    requires other != key && other in c.store
    ensures other in Get(c, key, now).cache.store
    ensures Get(c, key, now).cache.store[other] == c.store[other]
  {
  }

  /** Reading twice at the same instant gives the same answer and the same cache as reading once. */
  lemma GetIdempotent<K, V>(c: Cache<K, V>, key: K, now: int)
    ensures Get(Get(c, key, now).cache, key, now) == Get(c, key, now)
  {
  }

  /** A second write to a key wins over the first: the earlier value and stamp are gone. */
  lemma SetOverwrites<K, V>(c: Cache<K, V>, key: K, v1: V, t1: int, v2: V, t2: int)
    ensures Set(Set(c, key, v1, t1), key, v2, t2) == Set(c, key, v2, t2)
  {
  }

  /**
    After an entry has expired and been purged, a new write and a read
    within the window work as on a cache that never held the key.
  */
  lemma PurgeThenReuse<K, V>(c: Cache<K, V>, key: K, v1: V, t1: int, later: int, v2: V, t2: int, now: int)
    requires later - t1 > c.duration
    requires now - t2 <= c.duration
    ensures Get(Set(c, key, v1, t1), key, later).value == None
    ensures Get(Set(Get(Set(c, key, v1, t1), key, later).cache, key, v2, t2), key, now).value == Some(v2)
  {
  }
}

=== FILE: ui.dfy ===
/**
  The parts of the widget's `UI` class that compute something: the clock
  text of `updateTime`, the values `updateWeather` reads out of a payload,
  and the message `showError` is given. Writing into the page is not
  modelled; a rendering is the values the templates insert.
*/
module Ui {
  import opened Results
  import opened JsValues

  /** The one message the application shows on any failure. */
  const ErrorMessage: string := "Could not load weather data. Please try again later."

  /** The degree sign used in the temperature line. */
  const Degree: char := '\U{00B0}'

  // ---------------------------------------------------------------- clock

  /** `s.replace(a, b)` with a one-character pattern: only the first occurrence is replaced. */
  function ReplaceFirst(s: string, a: char, b: char): (r: string)
    ensures |r| == |s|
    decreases |s|
  {
    if |s| == 0 then s
    else if s[0] == a then [b] + s[1..]
    else [s[0]] + ReplaceFirst(s[1..], a, b)
  }

  /** `i` is the position of the first `a` in `s`. */
  predicate IsFirst(s: string, a: char, i: int) {
    && 0 <= i < |s|
    && s[i] == a
    && forall j :: 0 <= j < i ==> s[j] != a
  }

  /** When `a` occurs, exactly its first occurrence becomes `b` and the rest is kept. */
  lemma {:induction false} ReplaceFirstAt(s: string, a: char, b: char, i: int)
    requires IsFirst(s, a, i)
    ensures ReplaceFirst(s, a, b) == s[..i] + [b] + s[i + 1..]
    decreases |s|
  {
    if i > 0 {
      assert IsFirst(s[1..], a, i - 1);
      ReplaceFirstAt(s[1..], a, b, i - 1);
      assert s[..i] == [s[0]] + s[1..][..i - 1];
    }
  }

  /** When `a` does not occur, the string is returned unchanged. */
  lemma {:induction false} ReplaceFirstAbsent(s: string, a: char, b: char)
    requires forall j :: 0 <= j < |s| ==> s[j] != a
    ensures ReplaceFirst(s, a, b) == s
    decreases |s|
  {
    if |s| > 0 {
      ReplaceFirstAbsent(s[1..], a, b);
    }
  }

  /** `s.slice(0, n)`: the first `n` characters, or all of `s` when it is shorter. */
  function Take(s: string, n: nat): (r: string)
    ensures |r| == if |s| < n then |s| else n
    ensures r <= s
  {
    if |s| <= n then s else s[..n]
  }

  /**
    `updateTime`'s text for an ISO-8601 string: the first 'T' becomes a
    space, the first 19 characters are kept and " UTC" is appended.
  */
  function FormatClock(iso: string): (r: string)
    ensures |r| == (if |iso| < 19 then |iso| else 19) + 4
    ensures r[|r| - 4..] == " UTC"
  {
    Take(ReplaceFirst(iso, 'T', ' '), 19) + " UTC"
  }

  /** The layout of `toISOString` for years 0 to 9999; 'd' stands for any decimal digit. */
  const IsoLayout: string := "dddd-dd-ddTdd:dd:dd.dddZ"

  predicate FitsLayout(c: char, l: char) {
    if l == 'd' then IsDigit(c) else c == l
  }

  /** `s` has the shape `YYYY-MM-DDTHH:MM:SS.sssZ`. */
  predicate IsoTimestamp(s: string) {
    && |s| == |IsoLayout|
    && forall i :: 0 <= i < |s| ==> FitsLayout(s[i], IsoLayout[i])
  }

  /**
    For a timestamp in `toISOString`'s shape, the clock shows its date, a
    space, its time to the second and " UTC": 23 characters, with the
    fraction and the 'Z' dropped.
  */
  lemma ClockOfIso(iso: string)
    requires IsoTimestamp(iso)
    ensures |FormatClock(iso)| == 23
    ensures FormatClock(iso) == iso[..10] + " " + iso[11..19] + " UTC"
  {
    assert IsFirst(iso, 'T', 10) by {
      forall j | 0 <= j < 10 ensures iso[j] != 'T' {
        assert FitsLayout(iso[j], IsoLayout[j]);
      }
      assert FitsLayout(iso[10], IsoLayout[10]);
    }
    ReplaceFirstAt(iso, 'T', ' ', 10);
  }

  /** The instant 2025-06-02T07:28:30.123Z is shown as "2025-06-02 07:28:30 UTC". */
  lemma ClockExample()
    ensures FormatClock("2025-06-02T07:28:30.123Z") == "2025-06-02 07:28:30 UTC"
  {
    var iso := "2025-06-02T07:28:30.123Z";
    assert iso[..10] + " " + iso[11..19] + " UTC" == "2025-06-02 07:28:30 UTC";
    assert IsoTimestamp(iso) by {
      forall i | 0 <= i < |iso| ensures FitsLayout(iso[i], IsoLayout[i]) {
      }
    }
    ClockOfIso(iso);
  }

  // ------------------------------------------------------------- forecast

  /**
    The values `updateWeather` inserts into the forecast card's template;
    the card's fixed labels are not part of it.
  */
  datatype ForecastView = ForecastView(forecast: string, temperature: string, humidity: string, wind: string)

  /** `items[0].general` of a payload, read without failing. */
  function General(data: JsValue): JsValue {
    Field(FirstValue(Field(data, "items")), "general")
  }

  /**
    Every step of `updateWeather`'s template succeeds: none of the objects
    it reads a property of is `null` or `undefined` (the payload, `items`,
    `items[0]`, `general`, and the `temperature`, `relative_humidity`,
    `wind` and `wind.speed` records), and each of the seven values it
    interpolates can be converted to a string.
  */
  predicate Renderable(data: JsValue) {
    var items := Field(data, "items");
    var general := General(data);
    var temperature := Field(general, "temperature");
    var humidity := Field(general, "relative_humidity");
    var speed := Field(Field(general, "wind"), "speed");
    && !Nullish(data)
    && !Nullish(items)
    && !Nullish(FirstValue(items))
    && !Nullish(general)
    && Printable(Field(general, "forecast"))
    && !Nullish(temperature)
    && Printable(Field(temperature, "low")) && Printable(Field(temperature, "high"))
    && !Nullish(humidity)
    && Printable(Field(humidity, "low")) && Printable(Field(humidity, "high"))
    && !Nullish(Field(general, "wind"))
    && !Nullish(speed)
    && Printable(Field(speed, "low")) && Printable(Field(speed, "high"))
  }

  /** `"{low}{unit} - {high}{unit}"`, the shape of the temperature and humidity ranges. */
  function Range(low: string, high: string, unit: string): string {
    low + unit + " - " + high + unit
  }

  /**
    The steps of `updateWeather`'s template literal, in the order it makes
    them: each substitution is read and then converted to a string. Any read
    of a property of `null` or `undefined` throws, and so does converting an
    object with its own `toString` field; a missing leaf field is shown as
    "undefined". Once one read of an object has succeeded, every further
    read of that object succeeds and yields `Field`, so only the first read
    of each object can fail.
  */
  function ReadForecast(data: JsValue): (r: Result<ForecastView, JsError>)
    ensures r.Ok? <==> Renderable(data)
    ensures r.Ok? ==> r.value.forecast == Text(Field(General(data), "forecast")).value
  {
    var items :- Prop(data, "items");
    var first :- First(items);
    var general :- Prop(first, "general");
    var forecast :- Prop(general, "forecast");
    var forecastText :- Text(forecast);
    var temperature := Field(general, "temperature");
    var tempLow :- Prop(temperature, "low");
    var tempLowText :- Text(tempLow);
    var tempHighText :- Text(Field(temperature, "high"));
    var humidity := Field(general, "relative_humidity");
    var humLow :- Prop(humidity, "low");
    var humLowText :- Text(humLow);
    var humHighText :- Text(Field(humidity, "high"));
    var wind := Field(general, "wind");
    var speed :- Prop(wind, "speed");
    var windLow :- Prop(speed, "low");
    var windLowText :- Text(windLow);
    var windHighText :- Text(Field(speed, "high"));
    Ok(ForecastView(
      forecastText,
      Range(tempLowText, tempHighText, [Degree, 'C']),
      Range(humLowText, humHighText, "%"),
      windLowText + " - " + windHighText + " km/h"))
  }

  /** A `{low, high}` record. */
  function LowHigh(low: int, high: int): JsValue {
    Obj(map["low" := Num(low), "high" := Num(high)])
  }

  /** A payload of the endpoint's shape whose first item carries the given values. */
  function Payload(forecast: JsValue, tempLow: int, tempHigh: int, humLow: int, humHigh: int, windLow: int, windHigh: int): JsValue {
    var general := Obj(map[
      "forecast" := forecast,
      "temperature" := LowHigh(tempLow, tempHigh),
      "relative_humidity" := LowHigh(humLow, humHigh),
      "wind" := Obj(map["speed" := LowHigh(windLow, windHigh)])]);
    Obj(map["items" := Arr([Obj(map["general" := general])])])
  }

  /**
    The card of every renderable payload: the forecast text, then the
    temperature, humidity and wind ranges, each built from the string
    forms of its `low` and `high` fields.
  */
  lemma ReadRenderable(data: JsValue)
    requires Renderable(data)
    ensures
      var general := General(data);
      var temperature := Field(general, "temperature");
      var humidity := Field(general, "relative_humidity");
      var speed := Field(Field(general, "wind"), "speed");
      ReadForecast(data) == Ok(ForecastView(
        Text(Field(general, "forecast")).value,
        Range(Text(Field(temperature, "low")).value, Text(Field(temperature, "high")).value, [Degree, 'C']),
        Range(Text(Field(humidity, "low")).value, Text(Field(humidity, "high")).value, "%"),
        Text(Field(speed, "low")).value + " - " + Text(Field(speed, "high")).value + " km/h"))
  {
    var items := Field(data, "items");
    var first := FirstValue(items);
    var general := General(data);
    var temperature := Field(general, "temperature");
    var humidity := Field(general, "relative_humidity");
    var wind := Field(general, "wind");
    var speed := Field(wind, "speed");
    assert Prop(data, "items") == Ok(items);
    assert First(items) == Ok(first);
    assert Prop(first, "general") == Ok(general);
    assert Prop(general, "forecast") == Ok(Field(general, "forecast"));
    assert Prop(temperature, "low") == Ok(Field(temperature, "low"));
    assert Prop(humidity, "low") == Ok(Field(humidity, "low"));
    assert Prop(wind, "speed") == Ok(speed);
    assert Prop(speed, "low") == Ok(Field(speed, "low"));
  }

  /** Where the values of `Payload` sit. */
  lemma PayloadFields(forecast: JsValue, tempLow: int, tempHigh: int, humLow: int, humHigh: int, windLow: int, windHigh: int)
    ensures
      var general := General(Payload(forecast, tempLow, tempHigh, humLow, humHigh, windLow, windHigh));
      && Field(general, "forecast") == forecast
      && Field(general, "temperature") == LowHigh(tempLow, tempHigh)
      && Field(general, "relative_humidity") == LowHigh(humLow, humHigh)
      && Field(Field(general, "wind"), "speed") == LowHigh(windLow, windHigh)
      && (Renderable(Payload(forecast, tempLow, tempHigh, humLow, humHigh, windLow, windHigh)) <==> Printable(forecast))
  {
  }

  /** A well-formed payload is rendered with its forecast text and its three ranges in decimal. */
  lemma RenderPayload(forecast: string, tempLow: int, tempHigh: int, humLow: int, humHigh: int, windLow: int, windHigh: int)
    ensures ReadForecast(Payload(Str(forecast), tempLow, tempHigh, humLow, humHigh, windLow, windHigh))
         == Ok(ForecastView(
              forecast,
              NumberText(tempLow) + [Degree, 'C'] + " - " + NumberText(tempHigh) + [Degree, 'C'],
              NumberText(humLow) + "%" + " - " + NumberText(humHigh) + "%",
              NumberText(windLow) + " - " + NumberText(windHigh) + " km/h"))
  {
    var p := Payload(Str(forecast), tempLow, tempHigh, humLow, humHigh, windLow, windHigh);
    PayloadFields(Str(forecast), tempLow, tempHigh, humLow, humHigh, windLow, windHigh);
    ReadRenderable(p);
  }

  /**
    A forecast field that is an object with its own `toString` field, such
    as `{"toString": 0}`, makes the card fail although every record is there.
  */
  lemma ToStringFieldFails(fields: map<string, JsValue>, tempLow: int, tempHigh: int, humLow: int, humHigh: int, windLow: int, windHigh: int)
    requires "toString" in fields
    ensures ReadForecast(Payload(Obj(fields), tempLow, tempHigh, humLow, humHigh, windLow, windHigh)).Err?
  {
    PayloadFields(Obj(fields), tempLow, tempHigh, humLow, humHigh, windLow, windHigh);
  }

  /** The payload "Cloudy", 24-31, 60-95, 10-20 shows "24°C - 31°C", "60% - 95%" and "10 - 20 km/h". */
  lemma RenderExample()
    ensures ReadForecast(Payload(Str("Cloudy"), 24, 31, 60, 95, 10, 20))
         == Ok(ForecastView("Cloudy", "24\U{00B0}C - 31\U{00B0}C", "60% - 95%", "10 - 20 km/h"))
  {
    assert "24" + [Degree, 'C'] + " - " + "31" + [Degree, 'C'] == "24\U{00B0}C - 31\U{00B0}C";
    assert "60" + "%" + " - " + "95" + "%" == "60% - 95%";
    assert "10" + " - " + "20" + " km/h" == "10 - 20 km/h";
    assert NumberText(24) == "24" && NumberText(31) == "31";
    assert NumberText(60) == "60" && NumberText(95) == "95";
    assert NumberText(10) == "10" && NumberText(20) == "20";
    RenderPayload("Cloudy", 24, 31, 60, 95, 10, 20);
  }
}

=== FILE: weatherservice.dfy ===
/**
  `WeatherService.getWeather`: answer from the cache when it holds a truthy
  value under "weather", otherwise fetch the forecast, cache a parsed body
  and return it. The network and the JSON decoder are not modelled; their
  outcome is a parameter.
*/
module WeatherService {
  import opened Results
  import opened JsValues
  import opened TimedCache

  /** How long a fetched forecast is reused, in milliseconds (5 minutes). */
  const CacheDuration: int := 300000

  /** The one endpoint the service requests. */
  const WeatherEndpoint: string := "https://api.data.gov.sg/v1/environment/24-hour-weather-forecast"

  /** The one key the service uses in its cache. */
  const WeatherKey: string := "weather"

  type WeatherCache = Cache<string, JsValue>

  /** What `response.json()` yields: a value, or a rejection. */
  datatype Body = Parsed(data: JsValue) | Unparsable

  /** What `fetch` yields: a rejection, or a response with a status and a body. */
  datatype FetchOutcome = NetFail | Responded(status: int, body: Body)

  /** The errors `getWeather` rethrows. */
  datatype WeatherError = NetworkError | FetchError | ParseError

  /** The state a service starts in: an empty cache with the configured duration. */
  function NewService(): (c: WeatherCache)
    ensures c.duration == 300000
    ensures forall k :: k !in c.store
  {
    Empty(CacheDuration)
  }

  /** `response.ok`: the status is in the range 200-299, the 2xx class. */
  predicate ResponseOk(status: int): (ok: bool)
    ensures ok <==> status / 100 == 2
  {
    200 <= status <= 299
  }

  /** The result of one call: the value or error, the cache afterwards, and whether the network was used. */
  datatype Reply = Reply(result: Result<JsValue, WeatherError>, cache: WeatherCache, fetched: bool)

  /** The cache as it stands after the initial `get('weather')` of a call. */
  function AfterLookup(c: WeatherCache, now: int): WeatherCache {
    Get(c, WeatherKey, now).cache
  }

  /** The call is answered from the cache: the read found a truthy value. */
  predicate CacheHit(c: WeatherCache, now: int) {
    var found := Get(c, WeatherKey, now).value;
    found.Some? && Truthy(found.value)
  }

  /** Which error a fetch outcome leads to, if any; the order of the checks matters: status before body. */
  function FailureOf(outcome: FetchOutcome): Option<WeatherError> {
    match outcome
    case NetFail => Some(NetworkError)
    case Responded(status, body) =>
      if !ResponseOk(status) then Some(FetchError)
      else if body.Unparsable? then Some(ParseError)
      else None
  }

  /**
    `getWeather()`. `now` is the time of the cache read; `arrival` is the
    time read again when a parsed body is stored.
  */
  function GetWeather(c: WeatherCache, now: int, outcome: FetchOutcome, arrival: int): (r: Reply)
    ensures r.fetched <==> !CacheHit(c, now)
    ensures r.cache.duration == c.duration
    ensures !r.fetched ==> r.result == Ok(c.store[WeatherKey].value) && r.cache == c
    ensures r.fetched && r.result.Ok? ==> outcome.Responded? && ResponseOk(outcome.status) && outcome.body == Parsed(r.result.value)
    ensures r.fetched && r.result.Ok? ==> r.cache == Set(AfterLookup(c, now), WeatherKey, r.result.value, arrival)
    ensures r.fetched && r.result.Err? ==> r.cache == AfterLookup(c, now)
    ensures r.fetched ==> (r.result.Ok? <==> FailureOf(outcome).None?)
    ensures r.fetched && r.result.Err? ==> FailureOf(outcome) == Some(r.result.error)
  {
    var lookup := Get(c, WeatherKey, now);
    if lookup.value.Some? && Truthy(lookup.value.value) then
      Reply(Ok(lookup.value.value), lookup.cache, false)
    else
      match outcome
      case NetFail => Reply(Err(NetworkError), lookup.cache, true)
      case Responded(status, body) =>
        if !ResponseOk(status) then
          Reply(Err(FetchError), lookup.cache, true)
        else
          match body
          case Unparsable => Reply(Err(ParseError), lookup.cache, true)
          case Parsed(data) => Reply(Ok(data), Set(lookup.cache, WeatherKey, data, arrival), true)
  }

  /**
    On a miss the result is decided by the outcome alone: each failure
    becomes its error and leaves the cache as the initial read left it; a
    parsed body is stored under "weather", stamped at `arrival`, and returned.
  */
  lemma MissFollowsOutcome(c: WeatherCache, now: int, outcome: FetchOutcome, arrival: int)
    requires !CacheHit(c, now)
    ensures FailureOf(outcome).Some? ==>
      GetWeather(c, now, outcome, arrival) == Reply(Err(FailureOf(outcome).value), AfterLookup(c, now), true)
    ensures FailureOf(outcome).None? ==>
      var r := GetWeather(c, now, outcome, arrival);
      && r.result == Ok(outcome.body.data)
      && r.cache.store[WeatherKey] == Entry(outcome.body.data, arrival)
      && (forall k :: k in AfterLookup(c, now).store && k != WeatherKey ==> k in r.cache.store && r.cache.store[k] == AfterLookup(c, now).store[k])
  {
  }

  /** A non-success status is reported as such even when the body could not have been parsed. */
  lemma StatusCheckedBeforeBody(c: WeatherCache, now: int, status: int, arrival: int)
    requires !CacheHit(c, now) && !ResponseOk(status)
    ensures GetWeather(c, now, Responded(status, Unparsable), arrival).result == Err(FetchError)
  {
  }

  /**
    After a call that fetched a truthy payload, a call within the cache
    window returns the same payload without touching the network, whatever
    the network would have answered.
  */
  lemma SecondCallHitsCache(c: WeatherCache, now1: int, data: JsValue, status: int, arrival: int, now2: int, outcome2: FetchOutcome, arrival2: int)
    requires !CacheHit(c, now1) && ResponseOk(status) && Truthy(data)
    requires now2 - arrival <= c.duration
    ensures
      var first := GetWeather(c, now1, Responded(status, Parsed(data)), arrival);
      var second := GetWeather(first.cache, now2, outcome2, arrival2);
      first.result == Ok(data) && !second.fetched && second.result == Ok(data) && second.cache == first.cache
  {
  }

  /** Once the window has elapsed, the next call goes to the network again, even after a
      successful fetch. */
  lemma ExpiredRefetches(c: WeatherCache, now1: int, data: JsValue, status: int, arrival: int, now2: int, outcome2: FetchOutcome, arrival2: int)
    requires !CacheHit(c, now1) && ResponseOk(status)
    requires now2 - arrival > c.duration
    ensures
      var first := GetWeather(c, now1, Responded(status, Parsed(data)), arrival);
      GetWeather(first.cache, now2, outcome2, arrival2).fetched
  {
  }

  /**
    A falsy payload is cached but never served: the next call fetches again
    although the entry is fresh, because the hit test is JavaScript truthiness.
  */
  lemma FalsyPayloadRefetches(c: WeatherCache, now1: int, data: JsValue, status: int, arrival: int, now2: int, outcome2: FetchOutcome, arrival2: int)
    requires !CacheHit(c, now1) && ResponseOk(status) && !Truthy(data)
    ensures
      var first := GetWeather(c, now1, Responded(status, Parsed(data)), arrival);
      first.result == Ok(data) && GetWeather(first.cache, now2, outcome2, arrival2).fetched
  {
  }

  /**
    A failed call leaves no usable "weather" entry: the next call, at any
    time and whatever the outcomes, goes to the network again.
  */
  lemma FailureDoesNotPoisonCache(c: WeatherCache, now1: int, outcome1: FetchOutcome, arrival1: int, now2: int, outcome2: FetchOutcome, arrival2: int)
    requires GetWeather(c, now1, outcome1, arrival1).result.Err?
    ensures GetWeather(GetWeather(c, now1, outcome1, arrival1).cache, now2, outcome2, arrival2).fetched
  {
  }
}
